=== FILE: README.md ===
# Token guard and route logic of an eBay-clone web frontend

This project models the decision logic of a Flask frontend that authenticates
callers with JWT bearer tokens kept in cookies and forwards business
operations to an external API gateway.

The centre of the model is the route guard `TokenDecorator`. It is a pure
function, `TokenGuard.Decide`. Its inputs are the decorator's `token` and
`profile` arguments, the request's cookie and header tokens, a decode oracle
and the guarded route's URL. Its result is exactly one of three outcomes:
- run the route with a `token` argument;
- redirect to login, remembering the route in a `callback` cookie;
- render the access-forbidden page.

`TokenGuard.Guard` wraps a route function with that decision. Around the
guard, the model covers these pure pieces of the application:
- the URL builder `request_builder` over the INI configuration;
- the login and logout routes and the two session flags they set;
- the watchlist form check;
- the admin user-action mapping;
- the mapping from a gateway answer to a landing-page header;
- the `callback` cookie that the home page and the listing page set each time they render.

Modules, one concept each:
- `Optional`: `Option`, `Result` and Python's `dict.get`.
- `Decimal`: Python's `str()` on integers and its inverse.
- `PyValues`: JSON scalars, Python truthiness and `str()`.
- `Http`: responses, cookie instructions and the browser's cookie jar.
- `Gateway`: configuration lookup, URL building and splitting, gateway answers, status headers.
- `TokenGuard`: the decorator.
- `Routes`: the login, logout, watchlist and admin routes, the `callback` cookie set by the home and listing pages, plus properties that span several requests.

Behaviour that may look unintended is reproduced as the code has it:
- A token that is present but does not decode sends the caller to login even
  on `optional` routes. It is not downgraded to an anonymous caller.
- An absent token on an `optional` route runs the route with no admin check,
  even when the profile is `admin`.
- The route receives the raw token string, not the decoded user id.
- The guard reads the claims `userid` and `is_admin`. The debug login signs
  `account_id` instead, so its tokens are always sent back to login
  (`Routes.DebugTokenRejectedByGuard`). Flask calls `login` without
  arguments, so its `DEBUG` flag is always False when it is served as a
  route. The model keeps the flag as a parameter of `Routes.Login`.
- Neither login nor logout clears the `callback` cookie, and login never
  clears the `is_admin` session flag.
- The home page and the listing page overwrite the `callback` cookie each
  time they render. A caller turned away by the guard who opens the home
  page before logging in is sent to `/` after login, not to the guarded
  route. This holds whether the home page renders or its optional guard
  turns a token that does not decode back to login with `/` as the
  callback (`Routes.IndexVisitLosesGuardedRoute`). A rendered listing page
  likewise becomes the resume target (`Routes.AuctionBecomesResumeTarget`).
  A listing page that does not render leaves the cookie unchanged. That
  happens for a listing id that is not an integer, and for a token that
  does not decode, because the guard's own `url_for` raises first.

## Model

| member | source | states |
|---|---|---|
| `TokenGuard.ModeOf` | decorators.py:10-12 | The decorator takes any `token` string; only "optional" makes a token optional, every other value requires one. |
| `TokenGuard.ExtractToken` | decorators.py:19-24 | The `x-access-token` cookie is used when present, even if empty. The header of that name is read only when the cookie is absent. No token exists only when both are absent. |
| `TokenGuard.ReadClaims` | decorators.py:36-45 | Claims are read only when decoding succeeded and both `userid` and `is_admin` are present. Any other case is the caught exception. |
| `TokenGuard.AdminOnly` | decorators.py:48 | Only the exact profile "admin" demands the admin role, so the default profile never does. |
| `TokenGuard.Decide` | decorators.py:27-55 | The route runs anonymously exactly when no token was given and the mode is optional. It runs with the raw token exactly when the token decodes and the profile is not admin or `is_admin` is truthy. Forbidden happens exactly on admin routes with a decoded token that lacks the role. Every redirect carries the guarded route as its callback. |
| `TokenGuard.Refusal` | decorators.py:32-52 | A redirect goes to `/login` and sets exactly one cookie, `callback`, to the route. Forbidden renders the landing page with the "Access forbidden. User is not Admin" text and no header. |
| `TokenGuard.Guard` | decorators.py:14-56 | The wrapped route is applied, once, exactly when the decision is to invoke it, and with the decision's argument. Otherwise the guard's own refusal is returned. |
| `TokenGuard.AbsentTokenOptional` | decorators.py:27-30 | An absent or empty token on an optional route invokes it with `None`, whatever the profile. |
| `TokenGuard.AbsentTokenRequired` | decorators.py:27-34 | An absent or empty token on any non-optional route redirects to login with the route as callback. |
| `TokenGuard.BadTokenRedirects` | decorators.py:36-45 | A token that fails to decode, or lacks `userid` or `is_admin`, redirects on every route, optional ones included. |
| `TokenGuard.NonAdminForbidden` | decorators.py:47-52 | A decoded token with a falsy `is_admin` on an admin route gives Forbidden. |
| `TokenGuard.AuthenticatedInvoked` | decorators.py:54-55 | A decoded token on a non-admin route, or with a truthy `is_admin`, invokes the route with the raw token. |
| `TokenGuard.DefaultsNeverForbid` | decorators.py:10-12 | The default decorator requires a token, never forbids, and runs the route only for a decoded token. |
| `TokenGuard.ModeIrrelevantWithToken` | decorators.py:36-55 | Once a token is present, two decorators that differ only in mode decide alike. |
| `TokenGuard.AdminAdmitsFewer` | decorators.py:48 | Whatever an admin route admits, the same route with any other profile admits with the same argument. |
| `TokenGuard.OptionalAdmitsMore` | decorators.py:28-34 | Whatever a token-requiring route admits, its optional twin admits with the same argument. |
| `TokenGuard.EmptyCookieShadowsHeader` | decorators.py:21-34 | An empty token cookie hides any header token: the caller counts as having none. |
| `TokenGuard.DecidedByToken` | decorators.py:20-28 | Two requests with the same raw token get the same decision. |
| `TokenGuard.AdminRouteGetsToken` | decorators.py:55 | A required admin route that runs always receives the non-empty raw token, never `None`. |
| `Gateway.Lookup` | app.py:22-23 | A lookup succeeds exactly when the section is DEFAULT or a named section, and the option is in DEFAULT or in that named section. The value comes from the named section when it sets the option, and otherwise from DEFAULT. Section lookup fails only for a missing named section. A missing option is reported with its section and name. |
| `Gateway.BuildUrl` | app.py:24 | The URL is `http://`, then the host, ':', the port, '/' and the endpoint, each at its fixed position. Its length is the sum of the parts. |
| `Gateway.RequestBuilder` | app.py:18-24 | A URL is built exactly when ip and port both resolve. The URL is then the one built from the configured ip and port and the endpoint. A missing ip is reported before a missing port, and every error names the service. |
| `Gateway.RequestBuilderRoundTrip` | app.py:18-24 | Splitting a built URL gives back the configured ip, port and endpoint when the ip has no ':' and the port no '/'. |
| `Gateway.SplitBuiltUrl` | app.py:24 | `http://ip:port/endpoint` splits back into ip, port and endpoint when the ip has no ':' and the port no '/'. |
| `Gateway.SplitIsBuilt` | app.py:24 | Every URL that splits is exactly the URL built from its parts, and those parts meet the conditions under which splitting recovers them. |
| `Gateway.BuildUrlInjective` | app.py:24 | Under the same conditions, two URLs are equal exactly when ip, port and endpoint are equal. |
| `Gateway.StatusHeader` | app.py:441-444 | The header is "Success!" exactly on the success status. Otherwise it is "Error " followed by `str()` of the body's `status_code`, whatever its kind: an integer reads back from the rest, a string appears as is, null or a missing code shows as "None", and a boolean as "True" or "False". |
| `Gateway.ErrorHeaderInjective` | app.py:441-444 | Two error answers with integer `status_code`s get equal headers exactly when the codes are equal. |
| `Decimal.FromInt` | app.py:444 | `str()` of an integer is never empty and starts with '-' exactly for negative integers. |
| `Decimal.IntRoundTrip` | app.py:444 | Reading back `str()` of any integer gives that integer. |
| `Decimal.StrRoundTrip` | app.py:444 | Every string that reads back as an integer is that integer's `str()`. |
| `Decimal.FromIntInjective` | app.py:444 | Distinct integers have distinct `str()` renderings. |
| `PyValues.Truthy` | decorators.py:48 | A JSON value is falsy exactly when it is null, false, 0 or the empty string. |
| `Optional.Get` | app.py:89 | `dict.get` finds a value exactly when the key is in the dictionary, and then it is the stored value. |
| `PyValues.Present` | decorators.py:28 | `not token` is false exactly when a token is present and non-empty, which is the truthiness of that string. |
| `PyValues.StrOf` | app.py:330 | `str(d.get(k))` prints "None" for a missing key and `str()` of the value otherwise. |
| `PyValues.Str` | app.py:92 | `str()` of a JSON integer reads back to it, of a string is the string itself, and of null or a boolean is "None", "True" or "False". |
| `Routes.DebugClaims` | app.py:72-78 | The debug token's claims have a truthy `is_admin` and no `userid`. |
| `Routes.LoginTarget` | app.py:99-101 | After login the target is the `callback` cookie when the browser sent one (even empty), else the index page. |
| `Routes.Issue` | app.py:97-110 | Login redirects exactly when the token is a string that the application's key decodes to claims with `is_admin`. The redirect sets only the token cookie and marks the session logged in. `is_admin` is set to True only for a truthy claim and otherwise left as it was. Every other case raises with the session untouched. |
| `Routes.Login` | app.py:58-110 | A missing email or password gives exactly the 400 reply, and that reply arises only then. The session changes only on a successful login. Success marks the session logged in and never clears an admin flag. The redirect target is the remembered page and one token cookie is set. With both fields present: the debug login issues a minted token; a missing gateway configuration raises; an unreachable gateway gives the 502 reply; a 200 answer issues the answer's `token`; any other answer gives a landing page with "Error: " and the body's `status_code` and `message` when both are present, and raises otherwise. |
| `Routes.LoginMissingFieldNoCall` | app.py:63-66 | With a field missing, the reply does not depend on the gateway, the token codec or the configuration. |
| `Routes.Logout` | app.py:112-122 | Both session flags become False. The redirect goes to the index. Applying its cookies removes the token from any jar and leaves a `callback` cookie as it was. |
| `Routes.AddToWatchlist` | app.py:188-203 | The 400 reply happens exactly when the form lacks `token` or `listing_id`. Otherwise the success page names the listing, so a form with both fields always gets the landing page. |
| `Routes.GatewayLanding` | app.py:432-449 | A call that raised gives exactly the 500 reply. An answer gives the landing page with the status header and the answer's `message`. |
| `Routes.AccountCreationHeader` | app.py:327-330 | Account creation shows "Success!" exactly on 201, so a 200 answer is shown as an error. Any other status shows "Error " plus `str()` of the body's `status_code`. |
| `Routes.AccountUpdateHeader` | app.py:380-383 | Account update shows "Success!" exactly on 200, and otherwise "Error " plus the body's `status_code`. |
| `Routes.AdminChange` | app.py:417-429 | Only Suspend, Activate and Make_Admin name a change. The change maps back to the action that named it. |
| `Routes.AdminChangeRoundTrip` | app.py:422-427 | Suspend gives status Suspended, Activate gives Active, Make_Admin gives admin, and each is reached only by its own action. |
| `Routes.AdminEditUsers` | app.py:413-449 | Delete always gives the 500 reply. An action naming no change gives the 500 reply, or raises when the gateway is not configured. Only a missing gateway configuration on a non-Delete action raises. A recognised action with a configured gateway gives exactly the landing page for the gateway's answer to the caller's token, the form's `account_id` and the named change. |
| `Routes.AdminNoChangeNoCall` | app.py:417-438 | Delete and unrecognised actions give a reply that does not depend on the gateway. |
| `Routes.ValidLoginReturnsToCallback` | app.py:88-110 | Valid credentials while the browser holds a `callback` cookie redirect to that page and set the gateway's token as the token cookie. |
| `Routes.Index` | app.py:128-143 | The home page sets the `callback` cookie to `/`. |
| `Routes.ViewAuction` | app.py:206-222 | A listing id that `int()` rejects raises, and only then. Otherwise the listing page sets the `callback` cookie to that listing's URL. |
| `Routes.IndexResetsResumeTarget` | app.py:142 | After the home page, the next successful login lands on `/` whatever was remembered before. |
| `Routes.IndexVisitLosesGuardedRoute` | app.py:128-143 | A caller turned away by the guard who opens the home page before logging in is sent to `/` after login, not to the guarded route. This holds both when the optional guard renders the page and when it redirects a token that does not decode. |
| `Routes.AuctionPath` | app.py:221 | A listing URL is `/auction/` followed by the listing id, which reads back from it; no listing URL is the home page. |
| `Routes.AuctionBecomesResumeTarget` | app.py:221 | After a listing page, the next successful login lands on that listing. |
| `Routes.LoginTokenReachesGuard` | app.py:103 | After a successful login, the guard reads the token that login set on the caller's next request, whatever the headers. |
| `Routes.LogoutLocksRequiredRoutes` | app.py:119 | After logout, a required route redirects a caller who has no header token. |
| `Routes.LoginResumesGuardedRoute` | app.py:99-102 | When the guard turns a caller away and the login that follows succeeds, the caller is sent back to the guarded route. |
| `Routes.DebugTokenRejectedByGuard` | app.py:75 | A debug-minted token redirects to login on every route, whether the guard's key decodes it or not. |

## Left out

- JWT signing, `exp` checking and the two different keys (a literal in the decorator, the configured one in the application): `jwt.encode`/`jwt.decode` are function parameters. The guard and the login route each take their own decode function.
- The `exp` claim is modelled as the clock parameter plus 120 seconds. PyJWT's conversion of `datetime` to a timestamp is not modelled.
- Flask's request, response, session, `url_for` and template rendering: routes return `Http.Reply`, and route URLs are parameters or constants (`/login`, `/`).
- `url_for(f.__name__)` for a route with URL parameters (`viewAuction`) raises in Flask; the model takes the guarded route's URL as given.
- Flask matches header names case-blind; the model expects header names already lower-cased.
- `configparser` interpolation and option-name folding: the configuration is a map with option names already folded.
- Outbound `requests` calls: each is a `gateway` function parameter that returns an answer or `Unreachable`. Calls have no timeout in the source; that is not modelled.
- A gateway body that is not JSON makes `.json()` raise; bodies are modelled as already-decoded JSON objects. JSON floats, arrays and objects are not among the modelled values.
- Whether Flask stores session writes made before an unhandled exception is framework behaviour. On every path that raises, the model returns the session unchanged.
- `Routes.Logout`: the deleted token cookie is modelled as removed from the jar. Cookie paths, domains and expiry are not modelled.
- The templates and dummy listings that `index` and `viewAuction` render are not modelled; the model keeps their one effect on the login flow, the `callback` cookie each sets when it renders (`Routes.Index`, `Routes.ViewAuction`).
- `Routes.ViewAuction`: Python's `int()` parsing of the listing id is a parameter, and `url_for` percent-encoding of the id is not modelled.
- GET handlers and routes that only render templates or dummy data: `viewCart`, `checkout`, `reportItem`, `createAuction`, `admin_homepage`, `admin_edit_auctions`, `protected`, `open` and the login GET form.
- The `/api` health check is not modelled. It builds the gateway URL, calls the gateway and answers with the body and its `status_code`. Any failure, a missing configuration included, becomes a 502 reply.
- The account creation and account update handlers are modelled only through their header mapping (`Routes.AccountCreationHeader`, `Routes.AccountUpdateHeader`). These parts of them are not modelled:
  - account creation's GET form and its debug shortcut;
  - the account page's GET, which calls the gateway with no `try` around the call and reads `data` from the answer;
  - the account page's POST without an `email` field, which renders the editable form from the hidden fields instead of calling the gateway;
  - forwarding the form fields into the request bodies.
- Debug dummy data, date-string formatting, `print` calls, configuration loading and `app.run`.

=== FILE: decimal.dfy ===
/** Python's `str()` on integers (base 10, a leading `-` for negatives, no
    leading zeros) and its inverse. Integer gateway status codes reach the
    user through this rendering, so the inverse shows that no two integer
    codes produce the same header. */
module Decimal {
  import opened Optional

  predicate IsDigit(c: char) {
    '0' <= c <= '9'
  }

  predicate AllDigits(s: string) {
    forall i | 0 <= i < |s| :: IsDigit(s[i])
  }

  /** The digit strings `str()` produces for a non-negative integer:
      non-empty, and no leading zero unless the number is zero itself. */
  predicate Canonical(s: string) {
    |s| >= 1 && AllDigits(s) && (|s| > 1 ==> s[0] != '0')
  }

  function DigitValue(c: char): (d: nat)
    requires IsDigit(c)
    ensures d < 10
  {
    c as int - '0' as int
  }

  function DigitChar(d: nat): (c: char)
    requires d < 10
    ensures IsDigit(c) && DigitValue(c) == d
  {
    ('0' as int + d) as char
  }

  /** `str(n)` for `n >= 0`. */
  function FromNat(n: nat): (s: string)
    ensures Canonical(s)
    ensures n > 0 ==> s[0] != '0'
    decreases n
  {
    if n < 10 then [DigitChar(n)] else FromNat(n / 10) + [DigitChar(n % 10)]
  }

  /** The number a string of digits denotes (the empty string denotes 0). */
  function ToNat(s: string): nat
    requires AllDigits(s)
    decreases |s|
  {
    if s == [] then 0 else 10 * ToNat(s[..|s| - 1]) + DigitValue(s[|s| - 1])
  }

  /** `str(i)` for any integer. */
  function FromInt(i: int): (s: string)
    ensures |s| >= 1
    ensures s[0] == '-' <==> i < 0
  {
    if i < 0 then "-" + FromNat(-i) else FromNat(i)
  }

  /** Reads back exactly the strings `FromInt` produces. */
  function ToInt(s: string): Option<int> {
    if |s| > 0 && s[0] == '-' then
      if Canonical(s[1..]) && s[1..] != "0" then Some(-(ToNat(s[1..]) as int)) else None
    else if Canonical(s) then Some(ToNat(s))
    else None
  }

  lemma {:induction false} NatRoundTrip(n: nat)
    ensures ToNat(FromNat(n)) == n
  {
    if n >= 10 {
      var s := FromNat(n);
      assert s[..|s| - 1] == FromNat(n / 10);
      NatRoundTrip(n / 10);
    }
  }

  /** A canonical string other than "0" denotes a positive number. */
  lemma {:induction false} CanonicalPositive(s: string)
    requires Canonical(s) && s[0] != '0'
    ensures ToNat(s) > 0
    decreases |s|
  {
    if |s| > 1 {
      var p := s[..|s| - 1];
      assert p[0] == s[0];
      CanonicalPositive(p);
    }
  }

  lemma {:induction false} CanonicalRoundTrip(s: string)
    requires Canonical(s)
    ensures FromNat(ToNat(s)) == s
    decreases |s|
  {
    if |s| > 1 {
      var p := s[..|s| - 1];
      var d := DigitValue(s[|s| - 1]);
      assert p[0] == s[0];
      CanonicalPositive(p);
      CanonicalRoundTrip(p);
      var n := ToNat(s);
      assert n == 10 * ToNat(p) + d;
      assert n / 10 == ToNat(p) && n % 10 == d;
      assert s == p + [s[|s| - 1]];
    }
  }

  /** `ToInt` inverts `str()` on every integer. */
  lemma {:induction false} IntRoundTrip(i: int)
    ensures ToInt(FromInt(i)) == Some(i)
  {
    var s := FromInt(i);
    if i < 0 {
      var t := FromNat(-i);
      assert s[1..] == t;
      assert t[0] != '0';
      NatRoundTrip(-i);
      assert ToInt(s) == Some(-(ToNat(t) as int));
    } else {
      assert IsDigit(s[0]);
      NatRoundTrip(i);
      assert ToInt(s) == Some(ToNat(s));
    }
  }

  /** ... and `str()` inverts `ToInt`: the strings `ToInt` accepts are
      exactly the renderings of integers. */
  lemma {:induction false} StrRoundTrip(s: string, i: int)
    requires ToInt(s) == Some(i)
    ensures FromInt(i) == s
  {
    if |s| > 0 && s[0] == '-' {
      CanonicalRoundTrip(s[1..]);
      CanonicalPositive(s[1..]);
      assert s == "-" + s[1..];
    } else {
      CanonicalRoundTrip(s);
    }
  }

  /** Distinct integers render differently. */
  lemma FromIntInjective(a: int, b: int)
    ensures FromInt(a) == FromInt(b) <==> a == b
  {
    IntRoundTrip(a);
    IntRoundTrip(b);
  }
}

=== FILE: gateway.dfy ===
/** The application's side of the API gateway: where the gateway lives
    (`request_builder` over the INI configuration), what it answers, and how
    an answer becomes the header of the landing page. */
module Gateway {
  import opened Optional
  import opened PyValues
  import Decimal

  /** A parsed INI file as `configparser` holds it: the DEFAULT section and
      the named sections, option names already folded to lower case. */
  datatype Config = Config(defaults: map<string, string>, sections: map<string, map<string, string>>)

  const DefaultSection := "DEFAULT"

  /** The `KeyError` a missing section or option raises. */
  datatype ConfigError = NoSuchSection(section: string) | NoSuchOption(section: string, option: string)

  /** `config[section][option]`: a named section falls back to DEFAULT for
      options it does not set; DEFAULT itself always exists. */
  function Lookup(cfg: Config, section: string, option: string): (r: Result<string, ConfigError>)
    ensures r.Err? && r.error.NoSuchSection? <==> section != DefaultSection && section !in cfg.sections
    ensures r.Err? ==> r.error.section == section
    ensures r.Err? && r.error.NoSuchOption? ==> r.error.option == option && option !in cfg.defaults
    ensures r.Ok? && option !in cfg.defaults ==> section in cfg.sections && option in cfg.sections[section] && r.value == cfg.sections[section][option]
    ensures r.Ok? && section != DefaultSection && option in cfg.sections[section] ==> r.value == cfg.sections[section][option]
    ensures r.Ok? <==> (section == DefaultSection || section in cfg.sections) &&
                       (option in cfg.defaults || (section != DefaultSection && option in cfg.sections[section]))
    ensures r.Ok? && (section == DefaultSection || option !in cfg.sections[section]) ==> r.value == cfg.defaults[option]
  {
    if section == DefaultSection then
      if option in cfg.defaults then Ok(cfg.defaults[option]) else Err(NoSuchOption(section, option))
    else if section !in cfg.sections then Err(NoSuchSection(section))
    else if option in cfg.sections[section] then Ok(cfg.sections[section][option])
    else if option in cfg.defaults then Ok(cfg.defaults[option])
    else Err(NoSuchOption(section, option))
  }

  const Scheme := "http://"

  /** The f-string `http://{ip}:{port}/{endpoint}`. */
  function BuildUrl(host: string, port: string, endpoint: string): (u: string)
    ensures |u| == |Scheme| + |host| + 1 + |port| + 1 + |endpoint|
    ensures u[..|Scheme|] == Scheme && u[|Scheme|..|Scheme| + |host|] == host
    ensures u[|Scheme| + |host|] == ':' && u[|Scheme| + |host| + 1 + |port|] == '/'
    ensures u[|Scheme| + |host| + 1..|Scheme| + |host| + 1 + |port|] == port
    ensures u[|u| - |endpoint|..] == endpoint
  {
    Scheme + host + ":" + port + "/" + endpoint
  }

  /** `request_builder(endpoint, service)`: the service's ip is read before
      its port, so a missing section or ip is reported first. */
  function RequestBuilder(endpoint: string, service: string, cfg: Config): (r: Result<string, ConfigError>)
    ensures r.Ok? <==> Lookup(cfg, service, "ip").Ok? && Lookup(cfg, service, "port").Ok?
    ensures r.Err? && Lookup(cfg, service, "ip").Err? ==> r.error == Lookup(cfg, service, "ip").error
    ensures r.Err? ==> r.error.section == service
    ensures r.Ok? ==> r.value == BuildUrl(Lookup(cfg, service, "ip").value, Lookup(cfg, service, "port").value, endpoint)
  {
    match Lookup(cfg, service, "ip")
    case Err(e) => Err(e)
    case Ok(ip) =>
      match Lookup(cfg, service, "port")
      case Err(e) => Err(e)
      case Ok(port) => Ok(BuildUrl(ip, port, endpoint))
  }

  /** A URL built from a configured ip without ':' and port without '/'
      splits back into that ip, that port and the endpoint asked for. */
  lemma RequestBuilderRoundTrip(endpoint: string, service: string, cfg: Config)
    requires RequestBuilder(endpoint, service, cfg).Ok?
    requires ':' !in Lookup(cfg, service, "ip").value && '/' !in Lookup(cfg, service, "port").value
    ensures SplitUrl(RequestBuilder(endpoint, service, cfg).value) ==
            Some(UrlParts(Lookup(cfg, service, "ip").value, Lookup(cfg, service, "port").value, endpoint))
  {
    SplitBuiltUrl(Lookup(cfg, service, "ip").value, Lookup(cfg, service, "port").value, endpoint);
  }

  /** The host, port and path of an `http://host:port/path` URL. */
  datatype UrlParts = UrlParts(host: string, port: string, path: string)

  /** Position of the first `c` in `s`. */
  function FirstIndexOf(s: string, c: char): (r: Option<nat>)
    ensures r.None? <==> c !in s
    ensures r.Some? ==> r.value < |s| && s[r.value] == c && c !in s[..r.value]
    decreases |s|
  {
    if s == [] then None
    else if s[0] == c then Some(0)
    else
      match FirstIndexOf(s[1..], c)
      case None => None
      case Some(i) => assert s[..i + 1] == [s[0]] + s[1..][..i]; Some(i + 1)
  }

  /** Reads a URL back into its parts: the host runs to the first ':' after
      the scheme and the port to the next '/'. */
  function SplitUrl(u: string): Option<UrlParts> {
    if |u| < |Scheme| || u[..|Scheme|] != Scheme then None
    else SplitAuthority(u[|Scheme|..])
  }

  /** Splits `host:port/path`, the part of a URL after the scheme. */
  function SplitAuthority(rest: string): Option<UrlParts> {
    match FirstIndexOf(rest, ':')
    case None => None
    case Some(i) =>
      var after := rest[i + 1..];
      match FirstIndexOf(after, '/')
      case None => None
      case Some(j) => Some(UrlParts(rest[..i], after[..j], after[j + 1..]))
  }

  /** In `a + [c] + b` with no `c` in `a`, the first `c` is the one after `a`. */
  lemma FirstIndexAfterPrefix(a: string, c: char, b: string)
    requires c !in a
    ensures FirstIndexOf(a + [c] + b, c) == Some(|a|)
  {
    var s := a + [c] + b;
    assert s[|a|] == c;
    assert s[..|a|] == a;
  }

  /** Splitting inverts building, provided the host has no ':' and the port
      no '/' (an IPv6 literal host, for one, is not recovered). */
  lemma SplitBuiltUrl(host: string, port: string, endpoint: string)
    requires ':' !in host && '/' !in port
    ensures SplitUrl(BuildUrl(host, port, endpoint)) == Some(UrlParts(host, port, endpoint))
  {
    var u := BuildUrl(host, port, endpoint);
    var tail := port + "/" + endpoint;
    var rest := host + [':'] + tail;
    assert u == Scheme + rest;
    assert u[..|Scheme|] == Scheme && u[|Scheme|..] == rest;
    SplitAuthorityOf(host, port, endpoint);
  }

  lemma SplitAuthorityOf(host: string, port: string, endpoint: string)
    requires ':' !in host && '/' !in port
    ensures SplitAuthority(host + [':'] + (port + "/" + endpoint)) == Some(UrlParts(host, port, endpoint))
  {
    var tail := port + "/" + endpoint;
    var rest := host + [':'] + tail;
    FirstIndexAfterPrefix(host, ':', tail);
    assert rest[..|host|] == host;
    assert rest[|host| + 1..] == tail;
    assert tail == port + ['/'] + endpoint;
    FirstIndexAfterPrefix(port, '/', endpoint);
    assert tail[..|port|] == port;
    assert tail[|port| + 1..] == endpoint;
  }

  /** Every URL that splits is the URL built from its parts, and those parts
      meet the conditions of `SplitBuiltUrl`: splitting is a left inverse
      of building as well as a right one. */
  lemma SplitIsBuilt(u: string, p: UrlParts)
    requires SplitUrl(u) == Some(p)
    ensures ':' !in p.host && '/' !in p.port
    ensures u == BuildUrl(p.host, p.port, p.path)
  {
    var rest := u[|Scheme|..];
    assert u[..|Scheme|] == Scheme;
    assert u == u[..|Scheme|] + rest;
    SplitAuthorityIsJoin(rest, p);
    BuildUrlIsJoin(p.host, p.port, p.path);
  }

  /** `BuildUrl` as the scheme followed by the right-nested join. */
  lemma BuildUrlIsJoin(host: string, port: string, endpoint: string)
    ensures BuildUrl(host, port, endpoint) == Scheme + (host + (":" + (port + ("/" + endpoint))))
  {
  }

  lemma SplitAuthorityIsJoin(rest: string, p: UrlParts)
    requires SplitAuthority(rest) == Some(p)
    ensures ':' !in p.host && '/' !in p.port
    ensures rest == p.host + (":" + (p.port + ("/" + p.path)))
  {
    var i := FirstIndexOf(rest, ':').value;
    var after := rest[i + 1..];
    var j := FirstIndexOf(after, '/').value;
    assert p.host == rest[..i] && p.port == after[..j] && p.path == after[j + 1..];
    CutAt(after, j);
    CutAt(rest, i);
  }

  /** A sequence is its prefix, the element at the cut, and its suffix. */
  lemma CutAt(s: string, i: nat)
    requires i < |s|
    ensures s == s[..i] + ([s[i]] + s[i + 1..])
  {
  }

  /** Two services configured with different addresses never share a URL. */
  lemma BuildUrlInjective(h1: string, p1: string, e1: string, h2: string, p2: string, e2: string)
    requires ':' !in h1 && '/' !in p1 && ':' !in h2 && '/' !in p2
    ensures BuildUrl(h1, p1, e1) == BuildUrl(h2, p2, e2) <==> h1 == h2 && p1 == p2 && e1 == e2
  {
    SplitBuiltUrl(h1, p1, e1);
    SplitBuiltUrl(h2, p2, e2);
  }

  /** The gateway's answer to one outbound call: the call raised (host
      unreachable), or an HTTP status with the decoded JSON body. */
  datatype GatewayReply = Unreachable | Answer(status: int, body: Object)

  /** The status the gateway uses to report success: 201 for account
      creation, 200 for account and admin updates. */
  const CreatedStatus := 201
  const OkStatus := 200

  const SuccessHeader := "Success!"
  const ErrorPrefix := "Error "

  /** The landing-page header for a gateway answer: "Success!" on the
      route's success status, otherwise "Error " and the body's
      `status_code` as `str()` prints it ("None" when missing). */
  function StatusHeader(successStatus: int, status: int, body: Object): (h: string)
    ensures h == SuccessHeader <==> status == successStatus
    ensures status != successStatus ==> |h| >= |ErrorPrefix| && h[..|ErrorPrefix|] == ErrorPrefix
    ensures status != successStatus && "status_code" in body && body["status_code"].JInt? ==>
              Decimal.ToInt(h[|ErrorPrefix|..]) == Some(body["status_code"].i)
    ensures status != successStatus && "status_code" !in body ==> h[|ErrorPrefix|..] == "None"
    ensures status != successStatus ==> h[|ErrorPrefix|..] == StrOf(Get(body, "status_code"))
  {
    if status == successStatus then SuccessHeader
    else
      var h := ErrorPrefix + StrOf(Get(body, "status_code"));
      assert h[..|ErrorPrefix|] == ErrorPrefix && h[|ErrorPrefix|..] == StrOf(Get(body, "status_code"));
      assert h[0] != SuccessHeader[0];
      h
  }

  /** Distinct integer `status_code`s in two error answers give distinct
      headers. */
  lemma ErrorHeaderInjective(successStatus: int, s1: int, b1: Object, s2: int, b2: Object)
    requires s1 != successStatus && s2 != successStatus
    requires "status_code" in b1 && b1["status_code"].JInt?
    requires "status_code" in b2 && b2["status_code"].JInt?
    ensures StatusHeader(successStatus, s1, b1) == StatusHeader(successStatus, s2, b2) <==>
            b1["status_code"].i == b2["status_code"].i
  {
  }
}

=== FILE: http.dfy ===
/** What a route hands back to Flask, reduced to the parts the model
    observes, and the browser-side cookie jar those replies update. */
module Http {
  import opened Optional

  /** A cookie instruction carried by a response. */
  datatype CookieOp = SetCookie(name: string, value: string) | DeleteCookie(name: string)

  /** A response:
      - `JsonReply`: `jsonify({'message': m, 'status_code': s}), s`;
      - `Landing`: the landing.html template (the header is absent when the
        template is rendered without one);
      - `Redirect`: a redirect carrying cookie instructions;
      - `Page`: a rendered template carrying cookie instructions;
      - `InternalError`: an exception escaped the route, which Flask turns
        into its own 500 page. */
  datatype Reply =
    | JsonReply(status: int, message: string)
    | Landing(header: Option<string>, context: string, link: string, linkText: string)
    | Redirect(location: string, cookies: seq<CookieOp>)
    | Page(template: string, cookies: seq<CookieOp>)
    | InternalError

  /** The browser's cookies for the site, by name. */
  type Jar = map<string, string>

  function ApplyCookie(jar: Jar, op: CookieOp): (j: Jar)
    ensures op.SetCookie? ==> op.name in j && j[op.name] == op.value
    ensures op.DeleteCookie? ==> op.name !in j
    ensures forall k | k != op.name :: (k in j <==> k in jar) && (k in j ==> j[k] == jar[k])
  {
    match op
    case SetCookie(n, v) => jar[n := v]
    case DeleteCookie(n) => jar - {n}
  }

  /** Whether any instruction in `ops` names the cookie `k`. */
  predicate Touches(ops: seq<CookieOp>, k: string) {
    exists i | 0 <= i < |ops| :: ops[i].name == k
  }

  /** The jar after the browser applies a response's cookie instructions in
      order. Cookies no instruction names are left exactly as they were. */
  function ApplyCookies(jar: Jar, ops: seq<CookieOp>): (j: Jar)
    ensures forall k | !Touches(ops, k) :: (k in j <==> k in jar) && (k in j ==> j[k] == jar[k])
    decreases |ops|
  {
    if ops == [] then jar
    else
      var rest := ApplyCookies(ApplyCookie(jar, ops[0]), ops[1..]);
      assert forall i | 0 <= i < |ops[1..]| :: ops[1..][i] == ops[i + 1];
      rest
  }

  /** A response carrying one cookie instruction leaves the jar with that
      instruction's effect on its cookie and nothing else changed. */
  lemma ApplySingle(jar: Jar, op: CookieOp)
    ensures ApplyCookies(jar, [op]) == ApplyCookie(jar, op)
  {
    assert [op][1..] == [];
  }
}

=== FILE: optional.dfy ===
/** Failure-carrying wrappers shared by the whole model: Python's `None`
    becomes `Option.None`, and a lookup that raises becomes `Result.Err`. */
module Optional {

  datatype Option<+T> = None | Some(value: T)

  datatype Result<+T, +E> = Ok(value: T) | Err(error: E)

  /** Python's `dict.get(k)`: the value under `k`, or `None` when absent. */
  function Get<K, V>(m: map<K, V>, k: K): (r: Option<V>)
    ensures r.Some? <==> k in m
    ensures r.Some? ==> r.value == m[k]
  {
    if k in m then Some(m[k]) else None
  }
}

=== FILE: py_values.dfy ===
/** The Python values the application inspects: JSON scalars decoded from a
    token or a gateway reply, their truthiness (`if x`, `not x`), and their
    rendering by `str()` (string formatting and templates). */
module PyValues {
  import opened Optional
  import Decimal

  /** A decoded JSON scalar. */
  datatype Json = JNull | JBool(b: bool) | JInt(i: int) | JStr(s: string)

  /** A decoded JSON object, such as token claims or a gateway reply body. */
  type Object = map<string, Json>

  /** `bool(x)` in Python: false exactly for the falsy value of each kind. */
  predicate Truthy(j: Json)
    ensures Truthy(j) <==> j !in {JNull, JBool(false), JInt(0), JStr("")}
  {
    match j
    case JNull => false
    case JBool(b) => b
    case JInt(i) => i != 0
    case JStr(s) => s != ""
  }

  /** `bool(t)` for a slot holding `None` or a string: `not t` is true
      exactly when the slot is empty or holds "". */
  predicate Present(t: Option<string>)
    ensures Present(t) <==> t !in {None, Some("")}
    ensures Present(t) <==> t.Some? && Truthy(JStr(t.value))
  {
    t.Some? && t.value != ""
  }

  /** `str(x)` in Python (also what a template prints for `{{ x }}`). */
  function Str(j: Json): (s: string)
    ensures j.JInt? ==> Decimal.ToInt(s) == Some(j.i)
    ensures j.JStr? ==> s == j.s
    ensures j.JNull? ==> s == "None"
    ensures j.JBool? ==> s == (if j.b then "True" else "False")
  {
    match j
    case JNull => "None"
    case JBool(b) => if b then "True" else "False"
    case JInt(i) => Decimal.IntRoundTrip(i); Decimal.FromInt(i)
    case JStr(s) => s
  }

  /** `str(d.get(k))`: a missing key prints as "None". */
  function StrOf(o: Option<Json>): (s: string)
    ensures o.None? ==> s == "None"
    ensures o.Some? ==> s == Str(o.value)
  {
    match o
    case None => "None"
    case Some(j) => Str(j)
  }
}

=== FILE: routes.dfy ===
/** The decision logic of the application's routes: login and logout with
    their session flags, the watchlist form check, and the admin user
    actions. Outbound calls go through a `gateway` oracle that is handed
    the request the route would send; rendering and the HTTP plumbing are
    reduced to `Http.Reply`. */
module Routes {
  import opened Optional
  import opened PyValues
  import opened Http
  import opened Gateway
  import TokenGuard

  /** `url_for('index')`. */
  const IndexPath := "/"
  /** The configuration section that locates the gateway. */
  const GatewayService := "api_gateway"

  const MissingLoginFields := "Bad request. Did not contain required values in JSON"
  const MissingWatchlistFields := "Bad request. Did not contain token and listing_id in JSON"
  const GatewayUnreachable := "Bad gateway. API Gateway could not be reached"
  const GatewayError := "Error communicating with API Gateway"

  /** A request body the application posts to the gateway. */
  datatype Body =
    | Credentials(email: string, password: string)
    | AccountUpdate(token: string, accountId: Option<string>, change: AccountChange)

  /** The account change an admin action asks for. */
  datatype AccountChange = SetStatus(status: string) | GrantAdmin

  datatype Outbound = Outbound(url: string, body: Body)

  /** The `session` flags the pages read. `None` means the key was never
      set in this session. */
  datatype Session = Session(login: Option<bool>, isAdmin: Option<bool>)

  // Login / logout

  /** The login form; a field the form did not send is `None`. */
  datatype LoginForm = LoginForm(email: Option<string>, password: Option<string>)

  /** The collaborators of the login route: the configuration, the gateway,
      `jwt.encode`/`jwt.decode` with the application's key, and the clock
      (seconds since the epoch). */
  datatype LoginEnv = LoginEnv(
    cfg: Config,
    gateway: Outbound -> GatewayReply,
    mint: Object -> string,
    decode: string -> Option<Object>,
    now: int)

  /** The claims the debug login signs: `account_id` 19, admin, valid for
      two minutes. */
  function DebugClaims(now: int): (c: Object)
    ensures "is_admin" in c && Truthy(c["is_admin"])
    ensures "userid" !in c
  {
    map["account_id" := JInt(19), "is_admin" := JBool(true), "exp" := JInt(now + 120)]
  }

  /** Where a logged-in caller is sent: the `callback` cookie when the
      browser has one (even an empty one), the index page otherwise. */
  function LoginTarget(cookies: Jar): (target: string)
    ensures TokenGuard.CallbackCookie in cookies ==> target == cookies[TokenGuard.CallbackCookie]
    ensures TokenGuard.CallbackCookie !in cookies ==> target == IndexPath
  {
    if TokenGuard.CallbackCookie in cookies then cookies[TokenGuard.CallbackCookie] else IndexPath
  }

  /** The end of a login once a token is in hand: redirect to the target
      with the token cookie, mark the session logged in, then decode the
      token with the application's key and mark the session admin when the
      `is_admin` claim is truthy. A token that is not a string, does not
      decode, or has no `is_admin` claim makes the route raise. */
  function Issue(token: Option<Json>, cookies: Jar, s: Session, decode: string -> Option<Object>): (res: (Reply, Session))
    ensures res.0.Redirect? <==> token.Some? && token.value.JStr? && decode(token.value.s).Some? &&
                                 "is_admin" in decode(token.value.s).value
    ensures !res.0.Redirect? ==> res == (InternalError, s)
    ensures res.0.Redirect? ==>
              && res.0.location == LoginTarget(cookies)
              && res.0.cookies == [SetCookie(TokenGuard.TokenSlot, token.value.s)]
              && res.1.login == Some(true)
              && (Truthy(decode(token.value.s).value["is_admin"]) ==> res.1.isAdmin == Some(true))
              && (!Truthy(decode(token.value.s).value["is_admin"]) ==> res.1.isAdmin == s.isAdmin)
  {
    match token
    case Some(JStr(t)) =>
      (match decode(t)
       case Some(claims) =>
         if "is_admin" in claims then
           var loggedIn := s.(login := Some(true));
           var s' := if Truthy(claims["is_admin"]) then loggedIn.(isAdmin := Some(true)) else loggedIn;
           (Redirect(LoginTarget(cookies), [SetCookie(TokenGuard.TokenSlot, t)]), s')
         else (InternalError, s)
       case None => (InternalError, s))
    case _ => (InternalError, s)
  }

  /** `POST /login`. With `debug` set the gateway is skipped and a token for
      `DebugClaims` is minted instead. */
  function Login(form: LoginForm, cookies: Jar, s: Session, debug: bool, env: LoginEnv): (res: (Reply, Session))
    // A missing field is rejected with 400 before anything else happens.
    ensures form.email.None? || form.password.None? <==> res.0 == JsonReply(400, MissingLoginFields)
    // The session changes only on a successful login.
    ensures !res.0.Redirect? ==> res.1 == s
    // A successful login always records the login; it never clears the admin flag.
    ensures res.0.Redirect? ==> res.1.login == Some(true)
    ensures s.isAdmin == Some(true) ==> res.1.isAdmin == Some(true)
    // The caller is returned to the remembered page.
    ensures res.0.Redirect? ==> res.0.location == LoginTarget(cookies) && |res.0.cookies| == 1 &&
                                res.0.cookies[0].SetCookie? && res.0.cookies[0].name == TokenGuard.TokenSlot
    // With both fields present: the debug login issues a freshly minted token ...
    ensures form.email.Some? && form.password.Some? && debug ==>
              res == Issue(Some(JStr(env.mint(DebugClaims(env.now)))), cookies, s, env.decode)
    // ... otherwise the gateway is located (an unconfigured gateway raises) ...
    ensures form.email.Some? && form.password.Some? && !debug && RequestBuilder("login", GatewayService, env.cfg).Err? ==>
              res == (InternalError, s)
    // ... and sent the credentials; its answer decides the rest.
    ensures form.email.Some? && form.password.Some? && !debug && RequestBuilder("login", GatewayService, env.cfg).Ok? ==>
              var answer := env.gateway(Outbound(RequestBuilder("login", GatewayService, env.cfg).value,
                                                 Credentials(form.email.value, form.password.value)));
              && (answer.Unreachable? ==> res == (JsonReply(502, GatewayUnreachable), s))
              && (answer.Answer? && answer.status == 200 ==> res == Issue(Get(answer.body, "token"), cookies, s, env.decode))
              && (answer.Answer? && answer.status != 200 && "status_code" in answer.body && "message" in answer.body ==>
                    res.1 == s && res.0.Landing? && res.0.header == Some("Error: " + Str(answer.body["status_code"])) &&
                    res.0.context == Str(answer.body["message"]) && res.0.link == TokenGuard.LoginPath)
              && (answer.Answer? && answer.status != 200 && !("status_code" in answer.body && "message" in answer.body) ==>
                    res == (InternalError, s))
  {
    if form.email.None? || form.password.None? then (JsonReply(400, MissingLoginFields), s)
    else if debug then
      Issue(Some(JStr(env.mint(DebugClaims(env.now)))), cookies, s, env.decode)
    else
      match RequestBuilder("login", GatewayService, env.cfg)
      case Err(_) => (InternalError, s)
      case Ok(url) =>
        match env.gateway(Outbound(url, Credentials(form.email.value, form.password.value)))
        case Unreachable => (JsonReply(502, GatewayUnreachable), s)
        case Answer(status, body) =>
          if status == 200 then Issue(Get(body, "token"), cookies, s, env.decode)
          else if "status_code" in body && "message" in body then
            (Landing(Some("Error: " + Str(body["status_code"])), Str(body["message"]), TokenGuard.LoginPath, "Login"), s)
          else (InternalError, s)
  }

  /** `GET /logout`: back to the index, token cookie deleted, both flags
      cleared. */
  function Logout(s: Session): (res: (Reply, Session))
    ensures res.1.login == Some(false) && res.1.isAdmin == Some(false)
    ensures res.0.Redirect? && res.0.location == IndexPath
    ensures forall jar: Jar :: TokenGuard.TokenSlot !in ApplyCookies(jar, res.0.cookies)
    ensures forall jar: Jar :: TokenGuard.CallbackCookie in jar ==>
              TokenGuard.CallbackCookie in ApplyCookies(jar, res.0.cookies) &&
              ApplyCookies(jar, res.0.cookies)[TokenGuard.CallbackCookie] == jar[TokenGuard.CallbackCookie]
  {
    var ops := [DeleteCookie(TokenGuard.TokenSlot)];
    forall jar: Jar ensures ApplyCookies(jar, ops) == ApplyCookie(jar, ops[0]) {
      ApplySingle(jar, ops[0]);
    }
    (Redirect(IndexPath, ops), Session(Some(false), Some(false)))
  }

  // Pages that record themselves as the resume target

  /** `GET /` (behind an optional guard): the home page, which also points
      the `callback` cookie at itself. */
  function Index(token: Option<string>): (r: Reply)
    ensures r.Page? && r.cookies == [SetCookie(TokenGuard.CallbackCookie, IndexPath)]
  {
    Page("home.html", [SetCookie(TokenGuard.CallbackCookie, IndexPath)])
  }

  const AuctionPrefix := "/auction/"

  /** `url_for('viewAuction', listing_id=id)`: the listing id reads back
      from the path, and no listing path is the home page. */
  function AuctionPath(listingId: string): (p: string)
    ensures |p| == |AuctionPrefix| + |listingId| && p[..|AuctionPrefix|] == AuctionPrefix
    ensures p[|AuctionPrefix|..] == listingId
    ensures p != IndexPath
  {
    AuctionPrefix + listingId
  }

  /** `GET /auction/<listing_id>` (behind an optional guard). `parsed` is
      Python's `int(listing_id)`, which raises (`None`) for text that is
      not an integer; otherwise the listing page is shown and the
      `callback` cookie points at it. */
  function ViewAuction(token: Option<string>, listingId: string, parsed: Option<int>): (r: Reply)
    ensures r == InternalError <==> parsed.None?
    ensures parsed.Some? ==> r.Page? && r.cookies == [SetCookie(TokenGuard.CallbackCookie, AuctionPath(listingId))]
  {
    if parsed.None? then InternalError
    else Page("auction.html", [SetCookie(TokenGuard.CallbackCookie, AuctionPath(listingId))])
  }

  /** Visiting the home page replaces whatever resume target the browser
      held: the next successful login lands on `/`. */
  lemma IndexResetsResumeTarget(jar: Jar, token: Option<string>)
    ensures LoginTarget(ApplyCookies(jar, Index(token).cookies)) == IndexPath
  {
    ApplySingle(jar, Index(token).cookies[0]);
  }

  /** A caller turned away from `routePath` who then opens the home page
      before logging in is sent to `/`, not back to `routePath`: the
      optional guard around the home page either renders it or, for a
      token that does not decode, redirects with `/` as the callback, and
      both set the resume cookie to `/`. */
  lemma IndexVisitLosesGuardedRoute(jar: Jar, routePath: string, headers: map<string, string>,
                                    decode: string -> Option<Object>)
    ensures var afterGuard := ApplyCookies(jar, TokenGuard.Refusal(TokenGuard.RedirectLogin(routePath)).cookies);
            var g := TokenGuard.Guard(TokenGuard.TokenDecorator("optional"), TokenGuard.Request(afterGuard, headers),
                                      decode, IndexPath, Index);
            && (g.Ran? ==> g.result.Page? && LoginTarget(ApplyCookies(afterGuard, g.result.cookies)) == IndexPath)
            && (g.Refused? ==> g.reply.Redirect? && LoginTarget(ApplyCookies(afterGuard, g.reply.cookies)) == IndexPath)
  {
    var afterGuard := ApplyCookies(jar, TokenGuard.Refusal(TokenGuard.RedirectLogin(routePath)).cookies);
    ApplySingle(afterGuard, SetCookie(TokenGuard.CallbackCookie, IndexPath));
  }

  /** Viewing a listing makes it the resume target. */
  lemma AuctionBecomesResumeTarget(jar: Jar, token: Option<string>, listingId: string, n: int)
    ensures LoginTarget(ApplyCookies(jar, ViewAuction(token, listingId, Some(n)).cookies)) == AuctionPath(listingId)
  {
    ApplySingle(jar, ViewAuction(token, listingId, Some(n)).cookies[0]);
  }

  // Watchlist

  /** `POST /watchlist`: both form fields must be present. */
  function AddToWatchlist(token: Option<string>, listingId: Option<string>): (r: Reply)
    ensures r.JsonReply? <==> token.None? || listingId.None?
    ensures r.JsonReply? ==> r.status == 400 && r.message == MissingWatchlistFields
    ensures token.Some? && listingId.Some? ==> r.Landing?
    ensures r.Landing? ==> r.header == Some(SuccessHeader) && r.link == "/watchlist" &&
                           r.context == "Item " + listingId.value + " successfully added to watchlist. View now:"
  {
    if token.None? || listingId.None? then JsonReply(400, MissingWatchlistFields)
    else Landing(Some(SuccessHeader), "Item " + listingId.value + " successfully added to watchlist. View now:",
                 "/watchlist", "Watchlist")
  }

  // Gateway answers

  /** How the account and admin routes report a gateway call: the 500 reply
      when the call raised, otherwise the landing page whose header reflects
      the answer's status and whose text is the answer's `message`. */
  function GatewayLanding(successStatus: int, answer: GatewayReply): (r: Reply)
    ensures r == JsonReply(500, GatewayError) <==> answer.Unreachable?
    ensures answer.Answer? ==> r.Landing? && r.header == Some(StatusHeader(successStatus, answer.status, answer.body)) &&
                               r.context == StrOf(Get(answer.body, "message")) && r.link == IndexPath
  {
    match answer
    case Unreachable => JsonReply(500, GatewayError)
    case Answer(status, body) =>
      Landing(Some(StatusHeader(successStatus, status, body)), StrOf(Get(body, "message")), IndexPath, "Return home")
  }

  /** Account creation reports success only on 201: a 200 answer is shown as
      an error. */
  lemma AccountCreationHeader(status: int, body: Object)
    ensures GatewayLanding(CreatedStatus, Answer(status, body)).header == Some(SuccessHeader) <==> status == 201
    ensures status == 200 ==> GatewayLanding(CreatedStatus, Answer(status, body)).header != Some(SuccessHeader)
    ensures status != 201 ==> GatewayLanding(CreatedStatus, Answer(status, body)).header ==
                              Some(ErrorPrefix + StrOf(Get(body, "status_code")))
  {
  }

  /** Account updates report success only on 200; any other status shows
      "Error " and the body's `status_code`. */
  lemma AccountUpdateHeader(status: int, body: Object)
    ensures GatewayLanding(OkStatus, Answer(status, body)).header == Some(SuccessHeader) <==> status == 200
    ensures status != 200 ==> GatewayLanding(OkStatus, Answer(status, body)).header ==
                              Some(ErrorPrefix + StrOf(Get(body, "status_code")))
  {
  }

  // Admin user actions

  /** The account change each admin action names; `Delete` and anything
      unrecognised name none. */
  function AdminChange(action: Option<string>): (c: Option<AccountChange>)
    ensures c.Some? <==> action in {Some("Suspend"), Some("Activate"), Some("Make_Admin")}
    ensures c.Some? ==> Requestable(c.value) && action == Some(ActionName(c.value))
  {
    match action
    case Some("Suspend") => Some(SetStatus("Suspended"))
    case Some("Activate") => Some(SetStatus("Active"))
    case Some("Make_Admin") => Some(GrantAdmin)
    case _ => None
  }

  /** The form value that asks for a change (the inverse of `AdminChange`). */
  function ActionName(c: AccountChange): string
    requires Requestable(c)
  {
    match c
    case SetStatus(s) => if s == "Suspended" then "Suspend" else "Activate"
    case GrantAdmin => "Make_Admin"
  }

  /** The changes an admin form can ask for. */
  predicate Requestable(c: AccountChange) {
    c in {SetStatus("Suspended"), SetStatus("Active"), GrantAdmin}
  }

  /** Every requestable change is reached by exactly its own action name. */
  lemma AdminChangeRoundTrip(c: AccountChange)
    requires Requestable(c)
    ensures AdminChange(Some(ActionName(c))) == Some(c)
  {
  }

  /** `POST /admin/users`. `Delete` builds no request at all; an
      unrecognised action builds the URL but no body. Either way the post
      fails inside the route's `try` and the answer is the 500 reply; only
      building the URL itself can raise outside it. */
  function AdminEditUsers(token: string, accountId: Option<string>, action: Option<string>, cfg: Config,
                          gateway: Outbound -> GatewayReply): (r: Reply)
    ensures action == Some("Delete") ==> r == JsonReply(500, GatewayError)
    ensures AdminChange(action).None? ==> r == JsonReply(500, GatewayError) || r == InternalError
    ensures r == InternalError <==> action != Some("Delete") && RequestBuilder("updateAccount", GatewayService, cfg).Err?
    ensures r.Landing? ==>
              && AdminChange(action).Some?
              && RequestBuilder("updateAccount", GatewayService, cfg).Ok?
              && var sent := Outbound(RequestBuilder("updateAccount", GatewayService, cfg).value,
                                      AccountUpdate(token, accountId, AdminChange(action).value));
                 gateway(sent).Answer? &&
                 r.header == Some(StatusHeader(OkStatus, gateway(sent).status, gateway(sent).body))
    // A recognised action with a configured gateway posts the caller's token,
    // the form's `account_id` and the change, and reports the answer.
    ensures AdminChange(action).Some? && RequestBuilder("updateAccount", GatewayService, cfg).Ok? ==>
              r == GatewayLanding(OkStatus, gateway(Outbound(RequestBuilder("updateAccount", GatewayService, cfg).value,
                                                             AccountUpdate(token, accountId, AdminChange(action).value))))
  {
    if action == Some("Delete") then JsonReply(500, GatewayError)
    else
      match RequestBuilder("updateAccount", GatewayService, cfg)
      case Err(_) => InternalError
      case Ok(url) =>
        match AdminChange(action)
        case None => JsonReply(500, GatewayError)
        case Some(change) =>
          GatewayLanding(OkStatus, gateway(Outbound(url, AccountUpdate(token, accountId, change))))
  }

  /** An action that names no change never reaches the gateway: the reply
      is the same whatever the gateway would have answered. */
  lemma AdminNoChangeNoCall(token: string, accountId: Option<string>, action: Option<string>, cfg: Config,
                            g1: Outbound -> GatewayReply, g2: Outbound -> GatewayReply)
    requires AdminChange(action).None?
    ensures AdminEditUsers(token, accountId, action, cfg, g1) == AdminEditUsers(token, accountId, action, cfg, g2)
  {
  }

  /** A missing login field also never reaches the gateway. */
  lemma LoginMissingFieldNoCall(form: LoginForm, cookies: Jar, s: Session, debug: bool, e1: LoginEnv, e2: LoginEnv)
    requires form.email.None? || form.password.None?
    ensures Login(form, cookies, s, debug, e1) == Login(form, cookies, s, debug, e2)
  {
  }

  /** Valid credentials while the resume cookie holds a page send the
      caller to that page with the gateway's token set as the token cookie. */
  lemma ValidLoginReturnsToCallback(form: LoginForm, cookies: Jar, s: Session, env: LoginEnv, token: string)
    requires form.email.Some? && form.password.Some?
    requires TokenGuard.CallbackCookie in cookies
    requires RequestBuilder("login", GatewayService, env.cfg).Ok?
    requires var answer := env.gateway(Outbound(RequestBuilder("login", GatewayService, env.cfg).value,
                                                Credentials(form.email.value, form.password.value)));
             answer.Answer? && answer.status == 200 && Get(answer.body, "token") == Some(JStr(token))
    requires env.decode(token).Some? && "is_admin" in env.decode(token).value
    ensures Login(form, cookies, s, false, env).0 ==
            Redirect(cookies[TokenGuard.CallbackCookie], [SetCookie(TokenGuard.TokenSlot, token)])
  {
  }

  // Across requests

  /** The token a successful login sets is the token the guard reads on the
      caller's next request, whatever headers it carries. */
  lemma LoginTokenReachesGuard(form: LoginForm, cookies: Jar, s: Session, debug: bool, env: LoginEnv,
                               headers: map<string, string>)
    requires Login(form, cookies, s, debug, env).0.Redirect?
    ensures var reply := Login(form, cookies, s, debug, env).0;
            TokenGuard.ExtractToken(TokenGuard.Request(ApplyCookies(cookies, reply.cookies), headers)) ==
            Some(reply.cookies[0].value)
  {
    var reply := Login(form, cookies, s, debug, env).0;
    ApplySingle(cookies, reply.cookies[0]);
    assert reply.cookies == [reply.cookies[0]];
  }

  /** After logout a token-requiring route sends a caller who has no header
      token back to login. */
  lemma LogoutLocksRequiredRoutes(s: Session, jar: Jar, headers: map<string, string>, d: TokenGuard.TokenDecorator,
                                  decode: string -> Option<Object>, routePath: string)
    requires TokenGuard.TokenSlot !in headers && d.token != "optional"
    ensures TokenGuard.Decide(d, TokenGuard.Request(ApplyCookies(jar, Logout(s).0.cookies), headers), decode, routePath) ==
            TokenGuard.RedirectLogin(routePath)
  {
  }

  /** The resume round trip: the guard turns a caller away from `routePath`,
      and the login that follows sends the caller back to `routePath`. */
  lemma LoginResumesGuardedRoute(d: TokenGuard.TokenDecorator, req: TokenGuard.Request,
                                 guardDecode: string -> Option<Object>, routePath: string,
                                 form: LoginForm, s: Session, debug: bool, env: LoginEnv)
    requires TokenGuard.Decide(d, req, guardDecode, routePath).RedirectLogin?
    requires Login(form, ApplyCookies(req.cookies, TokenGuard.Refusal(TokenGuard.RedirectLogin(routePath)).cookies),
                   s, debug, env).0.Redirect?
    ensures Login(form, ApplyCookies(req.cookies, TokenGuard.Refusal(TokenGuard.RedirectLogin(routePath)).cookies),
                  s, debug, env).0.location == routePath
  {
    var op := SetCookie(TokenGuard.CallbackCookie, routePath);
    ApplySingle(req.cookies, op);
  }

  /** A token minted by the debug login carries `account_id` where the
      guard wants `userid`, so the guard sends its bearer to login on every
      route: whether or not the guard's key decodes it. */
  lemma DebugTokenRejectedByGuard(d: TokenGuard.TokenDecorator, env: LoginEnv, headers: map<string, string>,
                                  guardDecode: string -> Option<Object>, routePath: string, jar: Jar)
    requires var t := env.mint(DebugClaims(env.now));
             t != "" && (guardDecode(t).None? || guardDecode(t) == Some(DebugClaims(env.now)))
    ensures var req := TokenGuard.Request(jar[TokenGuard.TokenSlot := env.mint(DebugClaims(env.now))], headers);
            TokenGuard.Decide(d, req, guardDecode, routePath) == TokenGuard.RedirectLogin(routePath)
  {
  }
}

=== FILE: token_guard.dfy ===
/** The route guard `TokenDecorator`: it reads the caller's token, decodes
    it, and decides whether the wrapped route runs, the caller is sent to
    log in (remembering the page in a `callback` cookie), or the access
    forbidden page is shown.

    The JWT signature and expiry checks are not modelled: `decode` stands
    for `jwt.decode` with the decorator's key, answering `None` when the
    library raises and the claims otherwise. */
module TokenGuard {
  import opened Optional
  import opened PyValues
  import opened Http

  /** The cookie (and header) that carries the token. */
  const TokenSlot := "x-access-token"
  /** The cookie that remembers the page a caller was sent away from. */
  const CallbackCookie := "callback"
  /** `url_for('login')`. */
  const LoginPath := "/login"
  const ForbiddenText := "Access forbidden. User is not Admin"

  /** The decorator's arguments, with the defaults of its constructor. Any
      string is accepted; only "optional" and "admin" change behaviour. */
  datatype TokenDecorator = TokenDecorator(token: string := "required", profile: string := "user")

  datatype Mode = OptionalToken | RequiredToken

  /** How the `token` argument is read: anything but "optional" requires a
      token. */
  function ModeOf(d: TokenDecorator): (m: Mode)
    ensures m == OptionalToken <==> d.token == "optional"
  {
    if d.token == "optional" then OptionalToken else RequiredToken
  }

  /** Whether the decorator demands an administrator: only the exact
      profile "admin" does, so the default profile never does. */
  predicate AdminOnly(d: TokenDecorator)
    ensures AdminOnly(d) <==> d.profile == "admin"
    ensures AdminOnly(d) ==> d.profile != TokenDecorator().profile
  {
    d.profile == "admin"
  }

  /** The parts of an incoming request the guard reads. Header names are
      taken as already lower-cased, as Flask matches them case-blind. */
  datatype Request = Request(cookies: Jar, headers: map<string, string>)

  /** The raw token: the cookie if the request has one (even an empty one),
      and only otherwise the header of the same name. */
  function ExtractToken(req: Request): (t: Option<string>)
    ensures TokenSlot in req.cookies ==> t == Some(req.cookies[TokenSlot])
    ensures TokenSlot !in req.cookies && TokenSlot in req.headers ==> t == Some(req.headers[TokenSlot])
    ensures t.None? <==> TokenSlot !in req.cookies && TokenSlot !in req.headers
  {
    if TokenSlot in req.cookies then Some(req.cookies[TokenSlot])
    else if TokenSlot in req.headers then Some(req.headers[TokenSlot])
    else None
  }

  /** The two claims the guard reads from a decoded token. */
  datatype Identity = Identity(userid: Json, isAdmin: Json)

  /** `data['userid']` then `data['is_admin']`: a failed decode or either
      missing claim is the exception the guard catches. */
  function ReadClaims(decoded: Option<Object>): (r: Option<Identity>)
    ensures r.Some? <==> decoded.Some? && "userid" in decoded.value && "is_admin" in decoded.value
    ensures r.Some? ==> r.value.isAdmin == decoded.value["is_admin"] && r.value.userid == decoded.value["userid"]
  {
    match decoded
    case None => None
    case Some(data) =>
      if "userid" in data && "is_admin" in data then Some(Identity(data["userid"], data["is_admin"])) else None
  }

  /** What the guard does with one request. */
  datatype Outcome =
    | Invoke(arg: Option<string>)      // run the route with this `token` argument
    | RedirectLogin(callback: string)  // redirect to login, setting the callback cookie
    | Forbidden                        // render the access-forbidden page

  /** Whether a token was supplied and decodes to both claims. */
  predicate Authenticated(req: Request, decode: string -> Option<Object>) {
    var t := ExtractToken(req);
    Present(t) && ReadClaims(decode(t.value)).Some?
  }

  /** Whether the decoded token grants the admin role. */
  predicate GrantsAdmin(req: Request, decode: string -> Option<Object>)
    requires Authenticated(req, decode)
  {
    Truthy(ReadClaims(decode(ExtractToken(req).value)).value.isAdmin)
  }

  /** The guard's decision for a route whose URL is `routePath`. */
  function Decide(d: TokenDecorator, req: Request, decode: string -> Option<Object>, routePath: string): (o: Outcome)
    // A redirect always remembers the guarded route.
    ensures o.RedirectLogin? ==> o.callback == routePath
    // The route runs anonymously exactly when no token was given and the route allows that.
    ensures o == Invoke(None) <==> !Present(ExtractToken(req)) && ModeOf(d) == OptionalToken
    // Otherwise it runs with the raw token, and only after the token decoded.
    ensures o.Invoke? && o.arg.Some? <==> Authenticated(req, decode) && (!AdminOnly(d) || GrantsAdmin(req, decode))
    ensures o.Invoke? && o.arg.Some? ==> o.arg == ExtractToken(req)
    // Forbidden only on admin routes, for a decoded token without the role.
    ensures o.Forbidden? <==> AdminOnly(d) && Authenticated(req, decode) && !GrantsAdmin(req, decode)
  {
    var token := ExtractToken(req);
    if !Present(token) then
      if ModeOf(d) == OptionalToken then Invoke(None) else RedirectLogin(routePath)
    else
      match ReadClaims(decode(token.value))
      case None => RedirectLogin(routePath)
      case Some(id) =>
        if AdminOnly(d) && !Truthy(id.isAdmin) then Forbidden else Invoke(token)
  }

  /** The response the guard sends in place of running the route. */
  function Refusal(o: Outcome): (r: Reply)
    requires !o.Invoke?
    ensures o.RedirectLogin? ==> r.Redirect? && r.location == LoginPath && r.cookies == [SetCookie(CallbackCookie, o.callback)]
    ensures o.Forbidden? ==> r.Landing? && r.header.None? && r.context == ForbiddenText
  {
    match o
    case RedirectLogin(cb) => Redirect(LoginPath, [SetCookie(CallbackCookie, cb)])
    case Forbidden => Landing(None, ForbiddenText, "foo", "bar")
  }

  /** The result of a guarded route: what the route returned, or the
      guard's own response. */
  datatype Guarded<R> = Ran(result: R) | Refused(reply: Reply)

  /** `decorated_func`: the guard wrapped around `route`. The route is
      applied at most once, and only when the decision is to invoke it. */
  function Guard<R>(d: TokenDecorator, req: Request, decode: string -> Option<Object>, routePath: string,
                    route: Option<string> -> R): (g: Guarded<R>)
    ensures g.Ran? <==> Decide(d, req, decode, routePath).Invoke?
    ensures g.Ran? ==> g.result == route(Decide(d, req, decode, routePath).arg)
    ensures g.Refused? ==> g.reply == Refusal(Decide(d, req, decode, routePath))
  {
    var o := Decide(d, req, decode, routePath);
    if o.Invoke? then Ran(route(o.arg)) else Refused(Refusal(o))
  }

  // Scenario 1: no token.

  /** An absent or empty token on an optional route runs it with no token,
      whatever the profile: the admin check is skipped. */
  lemma AbsentTokenOptional(d: TokenDecorator, req: Request, decode: string -> Option<Object>, routePath: string)
    requires !Present(ExtractToken(req)) && d.token == "optional"
    ensures Decide(d, req, decode, routePath) == Invoke(None)
  {
  }

  /** An absent or empty token on any other route redirects to login with
      the route remembered; the route does not run. */
  lemma AbsentTokenRequired(d: TokenDecorator, req: Request, decode: string -> Option<Object>, routePath: string)
    requires !Present(ExtractToken(req)) && d.token != "optional"
    ensures Decide(d, req, decode, routePath) == RedirectLogin(routePath)
  {
  }

  // Scenario 3: a token that does not decode to both claims.

  /** A token that fails to decode or lacks `userid` or `is_admin`
      redirects to login on every route, optional ones included. */
  lemma BadTokenRedirects(d: TokenDecorator, req: Request, decode: string -> Option<Object>, routePath: string)
    requires Present(ExtractToken(req))
    requires decode(ExtractToken(req).value).None? ||
             "userid" !in decode(ExtractToken(req).value).value ||
             "is_admin" !in decode(ExtractToken(req).value).value
    ensures Decide(d, req, decode, routePath) == RedirectLogin(routePath)
  {
  }

  // Scenario 4: a decoded token without the admin role on an admin route.

  lemma NonAdminForbidden(d: TokenDecorator, req: Request, decode: string -> Option<Object>, routePath: string)
    requires d.profile == "admin" && Authenticated(req, decode) && !GrantsAdmin(req, decode)
    ensures Decide(d, req, decode, routePath) == Forbidden
  {
  }

  // Scenario 5: the route runs with the raw token, not the decoded userid.

  lemma AuthenticatedInvoked(d: TokenDecorator, req: Request, decode: string -> Option<Object>, routePath: string)
    requires Authenticated(req, decode) && (d.profile != "admin" || GrantsAdmin(req, decode))
    ensures Decide(d, req, decode, routePath) == Invoke(ExtractToken(req))
  {
  }

  /** The constructor's defaults demand a token and never forbid. */
  lemma DefaultsNeverForbid(req: Request, decode: string -> Option<Object>, routePath: string)
    ensures ModeOf(TokenDecorator()) == RequiredToken
    ensures Decide(TokenDecorator(), req, decode, routePath) != Forbidden
    ensures Decide(TokenDecorator(), req, decode, routePath).Invoke? ==> Authenticated(req, decode)
  {
  }

  /** Once a token is present, the `token` mode plays no part in the
      decision. */
  lemma ModeIrrelevantWithToken(d1: TokenDecorator, d2: TokenDecorator, req: Request,
                                decode: string -> Option<Object>, routePath: string)
    requires d1.profile == d2.profile && Present(ExtractToken(req))
    ensures Decide(d1, req, decode, routePath) == Decide(d2, req, decode, routePath)
  {
  }

  /** Requiring the admin role only ever takes access away: whatever an
      admin-only route admits, the same route for any profile admits too. */
  lemma AdminAdmitsFewer(d: TokenDecorator, req: Request, decode: string -> Option<Object>, routePath: string,
                         profile: string)
    requires AdminOnly(d) && Decide(d, req, decode, routePath).Invoke?
    ensures Decide(d.(profile := profile), req, decode, routePath) == Decide(d, req, decode, routePath)
  {
  }

  /** Making a route optional only ever grants access: whatever a
      token-requiring route admits, its optional twin admits too. */
  lemma OptionalAdmitsMore(d: TokenDecorator, req: Request, decode: string -> Option<Object>, routePath: string)
    requires Decide(d, req, decode, routePath).Invoke?
    ensures Decide(d.(token := "optional"), req, decode, routePath) == Decide(d, req, decode, routePath)
  {
  }

  /** An empty token cookie hides a header token: the caller is treated as
      having no token. */
  lemma EmptyCookieShadowsHeader(d: TokenDecorator, req: Request, decode: string -> Option<Object>, routePath: string)
    requires TokenSlot in req.cookies && req.cookies[TokenSlot] == ""
    ensures Decide(d, req, decode, routePath) ==
            (if d.token == "optional" then Invoke(None) else RedirectLogin(routePath))
  {
  }

  /** The decision depends on the request only through the raw token. */
  lemma DecidedByToken(d: TokenDecorator, r1: Request, r2: Request, decode: string -> Option<Object>, routePath: string)
    requires ExtractToken(r1) == ExtractToken(r2)
    ensures Decide(d, r1, decode, routePath) == Decide(d, r2, decode, routePath)
  {
  }

  /** An admin-only route hands its body the raw token string, never the
      anonymous `None`. */
  lemma AdminRouteGetsToken(d: TokenDecorator, req: Request,
                            decode: string -> Option<Object>, routePath: string)
    requires AdminOnly(d) && d.token != "optional"
    requires Decide(d, req, decode, routePath).Invoke?
    ensures Decide(d, req, decode, routePath).arg == ExtractToken(req)
    ensures Present(Decide(d, req, decode, routePath).arg)
  {
  }
}
